=== FILE: README.md ===
# Exchange order lifecycle, matching and settlement — a Dafny model

This project models the core of a single-venue spot exchange written in PHP. Users hold a quote-currency balance and, per (user, symbol), an asset row with a free `amount` and a `locked` amount. They place limit BUY and SELL orders. An order-created event starts a matching loop. The loop finds the oldest eligible counter-order, fills both sides (splitting off a FILLED fragment on a partial fill) and settles the trade. Settlement credits the seller the net proceeds, moves the asset from the seller's locked part to the buyer's free part, and appends a trade record with a 1.5% commission.

The whole store is one immutable `Ledger` value (`types.dfy`). It holds:

- a balance map;
- an asset-row map keyed by `AssetKey(user, symbol)`;
- an id-keyed order map with an auto-increment counter;
- a sequence of trades.

Every operation is a pure function of the ledger it is given. Every operation that can fail returns a `Result` carrying the new ledger; the others (`get`, `bought`, the two `create`s, provisioning and the fills of one iteration) return the new ledger directly. Failures carry one of `InsufficientBalance`, `InsufficientAsset` or `NotFound`. Amounts and prices are exact `real`s.

Files, one module each except the last:

- `types.dfy` — the data model and the store invariant `WellFormed`: every order is filed under its own id, and the id counters are ahead of every id in use.
- `user_repository.dfy` — `find`, `create`, `deductBalance` and `topupBalance`.
- `asset_repository.dfy` — `get` (first-or-create a zero row), `bought`, `lock`, `unlock` and `sold`.
- `order_repository.dfy` — `create`, `find`, `update`, and the counter-order queries `findSellOrder` and `findBuyOrder`. The queries pick the smallest eligible id.
- `order_service.dfy` — the order lifecycle: create, cancel and fill for both sides. `fillBuyOrder` and `fillSellOrder` behave identically in the source. They are the single `Fill`, which `FillBuyOrder` and `FillSellOrder` call. The matching loops reach them by side through `FillSide`, as the source calls them.
- `trade_service.dfy` — settlement (`Create`) and the two matching loops. The loops share one recursive `MatchLoop`, parameterised by the trigger's role. Its termination measure is the number of OPEN orders.
- `listeners.dfy` — module `FindOrderMatch` routes an order-created event to a matcher. Module `CreateAssets` provisions a zero asset row for every symbol of a new user.
- `scenarios.dfy` — the partial-match scenario of the trade-service feature tests, computed through the model.

## Model

| member | source | states |
|---|---|---|
| UserRepository.Create | app/Repositories/UserRepository.php:10-13 | The new user gets the next id, which was not in use. The balance is the one supplied, or 0 when none is supplied. No other user changes. |
| UserRepository.Find | app/Repositories/UserRepository.php:15-18 | Succeeds exactly for a known user and returns that user's balance. An unknown id gives NotFound. |
| UserRepository.CreateThenFind | app/Repositories/UserRepository.php:10-18 | A created user is found under the id they were given, with the balance they were created with (0 when none was supplied). |
| UserRepository.DeductBalance | app/Repositories/UserRepository.php:20-27 | NotFound exactly for an unknown user. Otherwise that user's balance drops by exactly the amount, and no other balance or store changes. |
| UserRepository.TopupBalance | app/Repositories/UserRepository.php:29-36 | NotFound exactly for an unknown user. Otherwise that user's balance rises by exactly the amount, and nothing else changes. |
| UserRepository.DeductThenTopup | app/Repositories/UserRepository.php:20-36 | A deduction followed by a top-up of the same amount restores the ledger exactly. |
| UserRepository.TopupThenDeduct | app/Repositories/UserRepository.php:20-36 | A top-up followed by a deduction of the same amount restores the ledger exactly. |
| AssetRepository.Get | app/Repositories/AssetRepository.php:10-24 | Returns an existing row without touching the ledger. Otherwise it creates and returns a zero row. Only that one row can be added. |
| AssetRepository.Bought | app/Repositories/AssetRepository.php:26-34 | The free amount of the (user, symbol) row rises by the amount and the locked part stays. A missing row is created first. No other row or store changes. |
| AssetRepository.FirstOrFail | app/Repositories/AssetRepository.php:38-41 | Returns the stored row, or NotFound exactly when there is none. |
| AssetRepository.Lock | app/Repositories/AssetRepository.php:36-48 | NotFound exactly when the row is missing. Otherwise free drops and locked rises by the amount, free + locked is preserved, and only that row changes. |
| AssetRepository.Unlock | app/Repositories/AssetRepository.php:50-62 | NotFound exactly when the row is missing. Otherwise free rises and locked drops by the amount, free + locked is preserved, and only that row changes. |
| AssetRepository.Sold | app/Repositories/AssetRepository.php:64-75 | NotFound exactly when the row is missing. Otherwise locked drops by the amount, free is unchanged, and only that row changes. |
| AssetRepository.LockThenUnlock | app/Repositories/AssetRepository.php:36-62 | `unlock` undoes `lock`: locking then unlocking the same amount restores the ledger exactly. |
| AssetRepository.UnlockThenLock | app/Repositories/AssetRepository.php:36-62 | `lock` undoes `unlock` the same way. |
| AssetRepository.GetIdempotent | app/Repositories/AssetRepository.php:10-24 | A second `get` of the same row changes nothing and returns the same row. |
| OrderRepository.Create | app/Repositories/OrderRepository.php:12-15 | Files exactly one new order under the next id, which was not in use, with the given fields. A missing status becomes OPEN, following the model default at app/Models/Order.php:41-43. The store stays well formed. |
| OrderRepository.Find | app/Repositories/OrderRepository.php:26-29 | Returns the stored order, or NotFound exactly for an unknown id. |
| OrderRepository.Update | app/Repositories/OrderRepository.php:17-24 | NotFound exactly for an unknown id. Otherwise only the named fields (amount, status) of that one order change, every other order is untouched, and the returned order is the fresh stored version. |
| OrderRepository.CreateThenFind | app/Repositories/OrderRepository.php:12-29 | A created order is found under its new id exactly as it was created. |
| OrderRepository.UpdateNothing | app/Repositories/OrderRepository.php:17-24 | An update that names no field leaves the ledger as it was and returns the stored order. |
| OrderRepository.FirstEligible | app/Repositories/OrderRepository.php:33-38 | The ascending-id scan. It returns the first id in the range that files an eligible order, and none exactly when no id in the range does. |
| OrderRepository.FindSellOrder | app/Repositories/OrderRepository.php:31-39 | The returned order is a stored OPEN SELL order of the symbol priced at or below the buy price. Its id is the smallest among all such orders; price gives no priority. The result is null exactly when no order is eligible. |
| OrderRepository.FindBuyOrder | app/Repositories/OrderRepository.php:41-49 | The returned order is a stored OPEN BUY order of the symbol priced at or above the sell price, with the smallest id among all such orders. The result is null exactly when none is eligible. |
| OrderService.CreateBuyOrder | app/Services/OrderService.php:24-40 | NotFound exactly for an unknown user. InsufficientBalance exactly when balance < amount * price; since the model's errors carry no ledger, nothing changes. On success the balance drops by exactly amount * price and stays >= 0. Exactly one OPEN BUY order with the given user, symbol, price and amount is added, and the assets and trades are untouched. |
| OrderService.CancelBuyOrder | app/Services/OrderService.php:42-55 | The owner is refunded remaining amount * price. The order becomes CANCELLED with its amount unchanged, and nothing else changes. NotFound for an unknown order or owner. There is no status guard. |
| OrderService.Fill | app/Services/OrderService.php:57-87 | The result is Full exactly when amount <= counter amount; the same order becomes FILLED with its amount unchanged and no order is created. Otherwise a new FILLED order with the counter amount, user, symbol and price (no side) is filed under a fresh id. The original keeps its status with amount - counter > 0, and the two amounts sum to the original. Only the order store changes. It models `fillBuyOrder` at these lines and `fillSellOrder` at lines 129-161, which behave identically. `FillBuyOrder`, `FillSellOrder` and the side dispatch `FillSide` are `Fill` by definition. |
| OrderService.CreateSellOrder | app/Services/OrderService.php:89-111 | InsufficientAsset exactly when the free amount of the row `get` yields is below the amount. On success free drops and locked rises by the amount, free + locked is preserved, and free stays >= 0. Exactly one OPEN SELL order is added, and no other row, balance or trade changes. |
| OrderService.CancelSellOrder | app/Services/OrderService.php:113-127 | The remaining amount moves from locked back to free on the owner's row, preserving free + locked. The order becomes CANCELLED with its amount unchanged, and nothing else changes. NotFound for an unknown order or a missing row. There is no status guard. |
| OrderService.CancelBuyOrderTwiceRefundsTwice | app/Services/OrderService.php:42-55 | Without a status guard, a second cancel of the same BUY order succeeds and refunds its cost a second time. |
| OrderService.CreateThenCancelBuyOrder | app/Services/OrderService.php:24-55 | Creating a BUY order and cancelling it at once restores every balance exactly and leaves the order CANCELLED. |
| OrderService.CreateThenCancelSellOrder | app/Services/OrderService.php:89-127 | Creating a SELL order and cancelling it at once restores the seller's asset row to what `get` would have returned. |
| TradeService.PaySeller | app/Services/TradeService.php:83-88 | The seller's balance rises by the sales total less 1.5% commission, so the credit plus the commission equals the sales total. No other balance changes. NotFound exactly for an unknown seller. |
| TradeService.Transfer | app/Services/TradeService.php:90-94 | The seller's locked amount drops by the traded amount with free unchanged. The buyer's free amount rises by the same, its row created when missing. The two rows' holdings are conserved and no other row changes. NotFound exactly when the seller has no row. |
| TradeService.Create | app/Services/TradeService.php:81-104 | Exactly one trade is appended, and earlier trades are kept. The trade holds the sell id, the buy id, the buy order's symbol, price and amount, and commission = amount * price * 0.015. The order store and the set of users are unchanged. NotFound exactly when the seller, or the seller's row for the symbol, is missing. |
| TradeService.CreatePaysSeller | app/Services/TradeService.php:83-88 | After settlement the seller's credit plus the commission equals the trade's amount * price. No other user's balance changes. |
| TradeService.CreateMovesAsset | app/Services/TradeService.php:90-94 | After settlement the seller's locked amount has dropped by the traded amount with free unchanged, and the buyer's free amount has risen by it. Holdings are conserved across the two rows, and no other row changes. |
| TradeService.FindCounter | app/Services/TradeService.php:31 | A BUY trigger queries SELL orders and a SELL trigger queries BUY orders, at the trigger's symbol and price. The found order is eligible and stored, and none is found exactly when no stored order is eligible. |
| TradeService.FillBoth | app/Services/TradeService.php:65-71 | The counter is filled by the trigger's amount through the fill of its own side, then the trigger by the counter's pre-fill amount through the fill of its side. Both filled parts are FILLED with amount min(trigger amount, counter amount). The trigger's remainder is FILLED, or OPEN with the difference. At least one of the two leaves the OPEN set, so the OPEN count strictly drops. |
| TradeService.MatchRound | app/Services/TradeService.php:60-77 | The trades of one iteration only grow, by trades that fit the trigger: same symbol, and at the BUY trigger's own price or at or above the SELL trigger's. The trigger stays the stored version of its order. Users are unchanged. The OPEN count strictly drops. It fails only when settlement does. |
| TradeService.RoundKeepsInv | app/Services/TradeService.php:60-77 | An iteration of this shape keeps the loop invariant: one fitting trade is appended and at least one order leaves the OPEN set. |
| TradeService.MatchRoundTrade | app/Services/TradeService.php:63-77 | One iteration appends exactly one trade and keeps the earlier ones. After one iteration the trigger's rest is FILLED, or OPEN with the counter's pre-fill amount taken off. If it stays OPEN, the counter-order is FILLED. The recorded trade's amount is min(trigger, counter). Its price is the BUY side's, whichever side triggered. Its ids name FILLED orders of that amount held by the right owners. |
| TradeService.MatchLoop | app/Services/TradeService.php:27-79 | With a non-OPEN trigger or no eligible counter-order, nothing changes. Otherwise the loop ends with the trigger FILLED, or OPEN with no eligible counter-order left; its status is never turned to anything but FILLED. The trades only grow, each fits the trigger, and the number added is at most the number of orders that left the OPEN set. |
| TradeService.FindBuyOrderMatch | app/Services/TradeService.php:54-79 | BUY loop. With no eligible SELL order nothing changes. An OPEN trigger ends FILLED, or OPEN with no eligible SELL order left. Every new trade is at the BUY order's own price. |
| TradeService.FindSellOrderMatch | app/Services/TradeService.php:27-52 | SELL loop. With no eligible BUY order nothing changes. An OPEN trigger ends FILLED, or OPEN with no eligible BUY order left. Every new trade is at or above the SELL order's price. |
| FindOrderMatch.RouteOf | app/Listeners/FindOrderMatch.php:28-34 | Exactly one route applies. A non-OPEN order starts no matcher, an OPEN BUY order the BUY loop, and any other OPEN order the SELL loop. |
| FindOrderMatch.Handle | app/Listeners/FindOrderMatch.php:26-35 | A non-OPEN order leaves the ledger unchanged. Otherwise exactly the routed matcher runs. The trigger's status is kept or turned FILLED, and no eligible counter-order is left while the trigger is still OPEN. |
| CreateAssets.Provision | app/Listeners/CreateAssets.php:26-29 | `get` for each listed symbol. Every listed symbol then has a row for the user. Existing rows are unchanged. New rows are zero rows of this user for a listed symbol. Nothing else in the ledger changes. |
| CreateAssets.Handle | app/Listeners/CreateAssets.php:23-30 | After handling, the user has a row for every symbol. Rows that existed are unchanged, new rows are zero rows of that user, and no other user's rows or other stores change. |
| CreateAssets.ProvisionExisting | app/Listeners/CreateAssets.php:26-29 | Provisioning symbols whose rows all exist changes nothing. |
| CreateAssets.HandleIdempotent | app/Listeners/CreateAssets.php:23-30 | Handling a user twice gives the same ledger as handling them once. |
| CreateAssets.RegisterUser | app/Repositories/UserRepository.php:10-13 | Creating a user as the store does it, with the synchronous user-created listener (app/Listeners/CreateAssets.php:23-30) run inside the insert. The new user gets the next id and the supplied balance, or 0. They come back with a row for every symbol: new rows are zero rows of theirs and existing rows are kept. Orders and trades are unchanged, and the store invariant is kept. |
| CreateAssets.RegisterUserProvisioned | app/Listeners/CreateAssets.php:23-30 | A user created this way is already provisioned: handling the notification for them again changes nothing. |
| Scenarios.FindBuyOrderMatchPartial | tests/Feature/Services/TradeServiceTest.php:561-644 | Scenario: a BUY of 3 at 2 against a SELL of 2 at 1.5. The SELL becomes FILLED, a FILLED fragment of 2 is split off, and the BUY stays OPEN with 1. One trade of 2 at price 2 with commission 0.06 is recorded. The seller's balance goes 1 to 4.94 and the seller's locked goes 2 to 0. The buyer gains 2 free. |

## Left out

- HTTP controllers, request validation, middleware, routes, registration and login: transport and authentication, outside the matching core.
- The queue dispatch of the order-created listener (after-commit queueing, the one-at-a-time overlap lock): matching is modelled as one sequential run on the ledger it is given.
- The notifications `OrderMatched`, `UserUpdated` and `TradeCreated`, and the observers that dispatch them: they carry no state the core reads. The user-created notification is different: it is modelled, see below.
- UserRepository.Create: states the insert alone. In the source the user observer (app/Observers/UserObserver.php:14-17) dispatches the user-created notification inside `create`, and its listener runs synchronously and writes the zero asset rows. That listener is `CreateAssets.Handle`, and the composition of the two is `CreateAssets.RegisterUser`.
- PHP floating point and the decimal column rounding of the database: all amounts and prices are exact reals.
- The trade repository and trade model are a plain append, folded into `TradeService.Create`. The per-user trade report query of the user model is not part of this model.
- Seeders, factories and the interface files: test data and signatures only. The commission constant is taken from the trade-service interface.
- Partial writes before a failure: the source runs without transactions, so a failing operation can leave earlier writes behind. One case is the zero row `get` creates before `createSellOrder` raises InsufficientAsset. Another is the seller top-up before a failing `sold` in settlement. An `Err` in the model carries no ledger, so these leftovers are not modelled.
- OrderService.CreateSellOrder: an InsufficientAsset failure reports no ledger, although the source has by then stored a zero row for a missing (user, symbol).
- TradeService.MatchLoop: takes as preconditions that the trigger is the stored version of its order (`Tracked`), that the store is well formed, and that the trigger is not on the counter side. The listener only calls the loops so, and the last condition rules out matching an order against itself.
- TradeService.MatchLoop: a settlement failure in any iteration is reported as NotFound for the whole run, and the model keeps none of the run's effects. The source has no transaction, so by then it has stored, for every earlier iteration, both fills, the trade, the seller's credit and both asset moves, and for the failing iteration its two fills and possibly the seller's credit. The exception only stops the remaining loop.
- OrderRepository.FindSellOrder and OrderRepository.FindBuyOrder require the store invariant `WellFormed`: every order is filed under its own id, below the id counter. The source's database guarantees this, and every operation of the model preserves it.
- FindOrderMatch.Handle: requires the event's order to be the stored version, which a queued listener observes only when nothing ran in between.
- CreateAssets.Handle: the symbol enumeration is not part of this model; BTC and ETH, the symbols the tests use, stand for it.
- OrderService.Fill: the source leaves the side of a split-off FILLED fragment unset, and the model follows the code (`None`). The feature tests expect the fragment to carry the side of its order; the model does not follow them.
- The unit tests of the order service expect fills to call the asset and balance repositories. The code does not, and the model follows the code: all ledger movement happens in settlement.
- Counter selection is by smallest id only, with no price priority. A FILLED or CANCELLED order can be cancelled again (see `OrderService.CancelBuyOrderTwiceRefundsTwice`). Amounts are not guarded against being negative. The model follows the code in all three.
- Global invariants across arbitrary sequences of operations (total balances plus commissions conserved, no negative balance) are not stated. The per-operation conservation facts above are.

=== FILE: asset_repository.dfy ===
/**
 The asset store: one row per (user, symbol) with a free `amount` and a `locked` amount.
 Every operation does relative arithmetic on the one addressed row.
 */
module AssetRepository {
  import opened Types

  /**
   `l2` differs from `l` at most in the row `k`, which `l2` holds (either the row was
   already there, or it is the only key added).
   */
  ghost predicate OnlyRow(l: Ledger, l2: Ledger, k: AssetKey) {
    && l2 == l.(assets := l2.assets)
    && l2.assets.Keys == l.assets.Keys + {k}
    && forall k' :: k' in l.assets && k' != k ==> l2.assets[k'] == l.assets[k']
  }

  /** Returns the row for (u, s), creating a zero row first when there is none. */
  function Get(l: Ledger, u: UserId, s: Symbol): (r: (Ledger, Asset))
    ensures AssetKey(u, s) in l.assets ==> r.0 == l && r.1 == l.assets[AssetKey(u, s)]
    ensures AssetKey(u, s) !in l.assets ==> r.1 == ZeroAsset
    ensures OnlyRow(l, r.0, AssetKey(u, s)) && r.0.assets[AssetKey(u, s)] == r.1
  {
    var k := AssetKey(u, s);
    if k in l.assets then (l, l.assets[k])
    else (l.(assets := l.assets[k := ZeroAsset]), ZeroAsset)
  }

  /** Credits `amount` to the free part of the row, creating the row when missing. */
  function Bought(l: Ledger, u: UserId, s: Symbol, amount: real): (r: Ledger)
    ensures OnlyRow(l, r, AssetKey(u, s))
    ensures r.assets[AssetKey(u, s)].amount == Row(l, AssetKey(u, s)).amount + amount
    ensures r.assets[AssetKey(u, s)].locked == Row(l, AssetKey(u, s)).locked
  {
    var (l1, a) := Get(l, u, s);
    l1.(assets := l1.assets[AssetKey(u, s) := a.(amount := a.amount + amount)])
  }

  /** The row for (u, s), or NotFound: the lookup `lock`, `unlock` and `sold` start from. */
  function FirstOrFail(l: Ledger, u: UserId, s: Symbol): (r: Result<Asset>)
    ensures r.Ok? <==> AssetKey(u, s) in l.assets
    ensures r.Ok? ==> r.value == l.assets[AssetKey(u, s)]
    ensures r.Err? ==> r.error == NotFound
  {
    if AssetKey(u, s) in l.assets then Ok(l.assets[AssetKey(u, s)]) else Err(NotFound)
  }

  /** Moves `amount` from free to locked; the holding (free + locked) is unchanged. */
  function Lock(l: Ledger, u: UserId, s: Symbol, amount: real): (r: Result<Ledger>)
    ensures r.Ok? <==> AssetKey(u, s) in l.assets
    ensures r.Err? ==> r.error == NotFound
    ensures r.Ok? ==> OnlyRow(l, r.value, AssetKey(u, s))
    ensures r.Ok? ==> r.value.assets[AssetKey(u, s)].amount == l.assets[AssetKey(u, s)].amount - amount
    ensures r.Ok? ==> r.value.assets[AssetKey(u, s)].locked == l.assets[AssetKey(u, s)].locked + amount
    ensures r.Ok? ==> Holding(r.value.assets[AssetKey(u, s)]) == Holding(l.assets[AssetKey(u, s)])
  {
    var a :- FirstOrFail(l, u, s);
    Ok(l.(assets := l.assets[AssetKey(u, s) := Asset(a.amount - amount, a.locked + amount)]))
  }

  /** Moves `amount` from locked back to free; the holding is unchanged. */
  function Unlock(l: Ledger, u: UserId, s: Symbol, amount: real): (r: Result<Ledger>)
    ensures r.Ok? <==> AssetKey(u, s) in l.assets
    ensures r.Err? ==> r.error == NotFound
    ensures r.Ok? ==> OnlyRow(l, r.value, AssetKey(u, s))
    ensures r.Ok? ==> r.value.assets[AssetKey(u, s)].amount == l.assets[AssetKey(u, s)].amount + amount
    ensures r.Ok? ==> r.value.assets[AssetKey(u, s)].locked == l.assets[AssetKey(u, s)].locked - amount
    ensures r.Ok? ==> Holding(r.value.assets[AssetKey(u, s)]) == Holding(l.assets[AssetKey(u, s)])
  {
    var a :- FirstOrFail(l, u, s);
    Ok(l.(assets := l.assets[AssetKey(u, s) := Asset(a.amount + amount, a.locked - amount)]))
  }

  /** Removes `amount` from the locked part (the seller's side of a trade); free is unchanged. */
  function Sold(l: Ledger, u: UserId, s: Symbol, amount: real): (r: Result<Ledger>)
    ensures r.Ok? <==> AssetKey(u, s) in l.assets
    ensures r.Err? ==> r.error == NotFound
    ensures r.Ok? ==> OnlyRow(l, r.value, AssetKey(u, s))
    ensures r.Ok? ==> r.value.assets[AssetKey(u, s)].amount == l.assets[AssetKey(u, s)].amount
    ensures r.Ok? ==> r.value.assets[AssetKey(u, s)].locked == l.assets[AssetKey(u, s)].locked - amount
  {
    var a :- FirstOrFail(l, u, s);
    Ok(l.(assets := l.assets[AssetKey(u, s) := a.(locked := a.locked - amount)]))
  }

  /** `unlock` is the inverse of `lock`: locking then unlocking the same amount restores the ledger. */
  lemma LockThenUnlock(l: Ledger, u: UserId, s: Symbol, amount: real)
    requires AssetKey(u, s) in l.assets
    ensures Lock(l, u, s, amount).Ok?
    ensures Unlock(Lock(l, u, s, amount).value, u, s, amount) == Ok(l)
  {
    var k := AssetKey(u, s);
    var l1 := Lock(l, u, s, amount).value;
    assert l1.assets[k := Asset(l1.assets[k].amount + amount, l1.assets[k].locked - amount)] == l.assets;
  }

  /** And the other way round: unlocking then locking the same amount restores the ledger. */
  lemma UnlockThenLock(l: Ledger, u: UserId, s: Symbol, amount: real)
    requires AssetKey(u, s) in l.assets
    ensures Unlock(l, u, s, amount).Ok?
    ensures Lock(Unlock(l, u, s, amount).value, u, s, amount) == Ok(l)
  {
    var k := AssetKey(u, s);
    var l1 := Unlock(l, u, s, amount).value;
    assert l1.assets[k := Asset(l1.assets[k].amount - amount, l1.assets[k].locked + amount)] == l.assets;
  }

  /** `get` is idempotent: once the row exists, a second `get` changes nothing. */
  lemma GetIdempotent(l: Ledger, u: UserId, s: Symbol)
    ensures Get(Get(l, u, s).0, u, s) == Get(l, u, s)
  {
  }
}

=== FILE: listeners.dfy ===
/**
 The listener that starts matching when an order is created: a non-OPEN order starts
 nothing, an OPEN BUY order starts the BUY loop, any other OPEN order the SELL loop.
 */
module FindOrderMatch {
  import opened Types
  import OrderRepository
  import TradeService

  /** Which matcher an order-created event runs, if any; exactly one of the three applies. */
  datatype Route = NoMatch | BuyMatch | SellMatch

  function RouteOf(o: Order): (r: Route)
    ensures r == NoMatch <==> o.status != Open
    ensures r == BuyMatch <==> o.status == Open && o.side == Some(Buy)
    ensures r == SellMatch <==> o.status == Open && o.side != Some(Buy)
  {
    if o.status != Open then NoMatch
    else if o.side == Some(Buy) then BuyMatch
    else SellMatch
  }

  /**
   Handles the creation of `order`, given as the store holds it when the event is handled.
   It runs at most one matcher, chosen by `RouteOf`.
   */
  function Handle(l: Ledger, order: Order): (r: Result<TradeService.Round>)
    requires WellFormed(l) && Tracked(l, order)
    ensures RouteOf(order) == NoMatch ==> r == Ok(TradeService.Round(l, order))
    ensures RouteOf(order) == BuyMatch ==> r == TradeService.FindBuyOrderMatch(l, order)
    ensures RouteOf(order) == SellMatch ==> r == TradeService.FindSellOrderMatch(l, order)
    ensures r.Ok? ==> var (l2, t2) := (r.value.ledger, r.value.trigger);
      && Tracked(l2, t2) && t2.id == order.id
      && (t2.status == order.status || t2.status == Filled)
      && (t2.status == Open && order.side == Some(Buy) ==>
            OrderRepository.FindSellOrder(l2, order.symbol, order.price).None?)
      && (t2.status == Open && order.side != Some(Buy) ==>
            OrderRepository.FindBuyOrder(l2, order.symbol, order.price).None?)
  {
    match RouteOf(order)
    case NoMatch => Ok(TradeService.Round(l, order))
    case BuyMatch => TradeService.FindBuyOrderMatch(l, order)
    case SellMatch => TradeService.FindSellOrderMatch(l, order)
  }
}

/**
 The listener that runs when a user is created: it makes sure the user has an asset row
 for every symbol, creating zero rows where there are none.
 */
module CreateAssets {
  import opened Types
  import AssetRepository
  import UserRepository

  /** `get` for each symbol of `symbols` in turn. */
  function Provision(l: Ledger, u: UserId, symbols: seq<Symbol>): (r: Ledger)
    ensures r == l.(assets := r.assets)
    ensures forall s :: s in symbols ==> AssetKey(u, s) in r.assets
    ensures forall k :: k in l.assets ==> k in r.assets && r.assets[k] == l.assets[k]
    ensures forall k :: k in r.assets && k !in l.assets ==>
              k.user == u && k.symbol in symbols && r.assets[k] == ZeroAsset
    decreases |symbols|
  {
    if symbols == [] then l
    else Provision(AssetRepository.Get(l, u, symbols[0]).0, u, symbols[1..])
  }

  /**
   After `Handle` the user has a row for every symbol; rows that existed are unchanged, the
   new ones are zero rows of this user, and nothing else in the ledger changes.
   */
  function Handle(l: Ledger, u: UserId): (r: Ledger)
    ensures r == l.(assets := r.assets)
    ensures forall s: Symbol :: AssetKey(u, s) in r.assets
    ensures forall k :: k in l.assets ==> k in r.assets && r.assets[k] == l.assets[k]
    ensures forall k :: k in r.assets && k !in l.assets ==> k.user == u && r.assets[k] == ZeroAsset
  {
    AllSymbolsComplete();
    Provision(l, u, AllSymbols)
  }

  /** The enumeration lists every symbol. */
  lemma AllSymbolsComplete()
    ensures forall s: Symbol :: s in AllSymbols
  {
    forall s: Symbol ensures s in AllSymbols {
      match s
      case BTC => assert AllSymbols[0] == BTC;
      case ETH => assert AllSymbols[1] == ETH;
    }
  }

  /** Provisioning rows that all exist already changes nothing. */
  lemma {:induction false} ProvisionExisting(l: Ledger, u: UserId, symbols: seq<Symbol>)
    requires forall s :: s in symbols ==> AssetKey(u, s) in l.assets
    ensures Provision(l, u, symbols) == l
    decreases |symbols|
  {
    if symbols != [] {
      assert symbols[0] in symbols;
      assert forall s :: s in symbols[1..] ==> s in symbols;
      ProvisionExisting(l, u, symbols[1..]);
    }
  }

  /** Handling the same user twice leaves the ledger as handling it once. */
  lemma HandleIdempotent(l: Ledger, u: UserId)
    ensures Handle(Handle(l, u), u) == Handle(l, u)
  {
    ProvisionExisting(Handle(l, u), u, AllSymbols);
  }

  /**
   Creating a user as the store does it: the user-created notification is handled
   synchronously inside the insert, so the new user comes back with an asset row for every
   symbol. Rows already filed under the fresh id (which a well-formed store cannot have) are
   kept.
   */
  function RegisterUser(l: Ledger, balance: Option<real>): (r: (Ledger, UserId))
    ensures r.1 == l.nextUserId && r.0.nextUserId == l.nextUserId + 1
    ensures r.0.balances.Keys == l.balances.Keys + {r.1}
    ensures r.0.balances[r.1] == balance.GetOr(0.0)
    ensures forall v :: v in l.balances && v != r.1 ==> r.0.balances[v] == l.balances[v]
    ensures forall s: Symbol :: AssetKey(r.1, s) in r.0.assets
    ensures forall k :: k in l.assets ==> k in r.0.assets && r.0.assets[k] == l.assets[k]
    ensures forall k :: k in r.0.assets && k !in l.assets ==> k.user == r.1 && r.0.assets[k] == ZeroAsset
    ensures r.0.orders == l.orders && r.0.nextOrderId == l.nextOrderId && r.0.trades == l.trades
    ensures WellFormed(l) ==> r.1 !in l.balances && WellFormed(r.0)
  {
    var (l1, u) := UserRepository.Create(l, balance);
    (Handle(l1, u), u)
  }

  /** A registered user is provisioned: running the listener for them again changes nothing. */
  lemma RegisterUserProvisioned(l: Ledger, balance: Option<real>)
    ensures var (l2, u) := RegisterUser(l, balance); Handle(l2, u) == l2
  {
    var (l1, u) := UserRepository.Create(l, balance);
    HandleIdempotent(l1, u);
  }
}

=== FILE: order_repository.dfy ===
/**
 The order store: creation with an auto-increment id, field-wise update of one order,
 lookup by id, and the counter-order queries the matching loops use. A counter-order query
 keeps the OPEN orders of the given symbol and opposite side whose price satisfies the
 limit, and returns the one with the smallest id; price plays no part in the choice.
 */
module OrderRepository {
  import opened Types

  /** The fields a caller passes to `create`; a missing status defaults to OPEN. */
  datatype OrderParams = OrderParams(
    user: UserId,
    symbol: Symbol,
    side: Option<Side>,
    price: real,
    amount: real,
    status: Option<Status>)

  /** The fields a caller passes to `update`; `None` leaves the field as it is. */
  datatype OrderPatch = OrderPatch(amount: Option<real>, status: Option<Status>)

  function Create(l: Ledger, p: OrderParams): (r: (Ledger, Order))
    ensures r.1.id == l.nextOrderId && r.0.nextOrderId == l.nextOrderId + 1
    ensures r.1.user == p.user && r.1.symbol == p.symbol && r.1.side == p.side
    ensures r.1.price == p.price && r.1.amount == p.amount
    ensures p.status.None? ==> r.1.status == Open
    ensures p.status.Some? ==> r.1.status == p.status.value
    ensures r.0.orders == l.orders[r.1.id := r.1]
    ensures r.0 == l.(orders := r.0.orders, nextOrderId := r.0.nextOrderId)
    ensures WellFormed(l) ==> r.1.id !in l.orders && WellFormed(r.0)
  {
    var o := Order(l.nextOrderId, p.user, p.symbol, p.side, p.price, p.amount, p.status.GetOr(Open));
    (l.(orders := l.orders[o.id := o], nextOrderId := l.nextOrderId + 1), o)
  }

  /** The stored order with this id; NotFound for an unknown id. */
  function Find(l: Ledger, id: OrderId): (r: Result<Order>)
    ensures r.Ok? <==> id in l.orders
    ensures r.Ok? ==> r.value == l.orders[id]
    ensures r.Err? ==> r.error == NotFound
  {
    if id in l.orders then Ok(l.orders[id]) else Err(NotFound)
  }

  /**
   Changes the named fields of one order and returns its fresh stored version; every other
   order, and every other field of this one, is left alone.
   */
  function Update(l: Ledger, id: OrderId, patch: OrderPatch): (r: Result<(Ledger, Order)>)
    ensures r.Ok? <==> id in l.orders
    ensures r.Err? ==> r.error == NotFound
    ensures r.Ok? && WellFormed(l) ==> Tracked(r.value.0, r.value.1) && r.value.1.id == id
    ensures r.Ok? ==> r.value.0 == l.(orders := l.orders[id := r.value.1])
    ensures r.Ok? ==> var o, o2 := l.orders[id], r.value.1;
      && o2.user == o.user && o2.symbol == o.symbol && o2.side == o.side && o2.price == o.price
      && o2.amount == (if patch.amount.Some? then patch.amount.value else o.amount)
      && o2.status == (if patch.status.Some? then patch.status.value else o.status)
    ensures r.Ok? && WellFormed(l) ==> WellFormed(r.value.0)
  {
    var o :- Find(l, id);
    var o2 := o.(amount := patch.amount.GetOr(o.amount), status := patch.status.GetOr(o.status));
    Ok((l.(orders := l.orders[id := o2]), o2))
  }

  /** A created order is found under the id it was given, as created. */
  lemma CreateThenFind(l: Ledger, p: OrderParams)
    ensures var (l2, o) := Create(l, p); Find(l2, o.id) == Ok(o)
  {
  }

  /** An update that names no field changes nothing and returns the stored order. */
  lemma UpdateNothing(l: Ledger, id: OrderId)
    requires id in l.orders
    ensures Update(l, id, OrderPatch(None, None)) == Ok((l, l.orders[id]))
  {
    assert l.orders[id := l.orders[id]] == l.orders;
  }

  /** `o` is a candidate counter-order for a query on `symbol`, `side` and price `limit`. */
  predicate Eligible(o: Order, symbol: Symbol, side: Side, limit: real) {
    && o.symbol == symbol
    && o.side == Some(side)
    && o.status == Open
    && match side
       case Sell => o.price <= limit
       case Buy => o.price >= limit
  }

  /** The smallest id in [from, bound) that files an eligible order: the query in ascending id order. */
  function FirstEligible(orders: map<OrderId, Order>, symbol: Symbol, side: Side, limit: real,
                         from: nat, bound: nat): (r: Option<OrderId>)
    ensures r.Some? ==> && from <= r.value < bound && r.value in orders
                        && Eligible(orders[r.value], symbol, side, limit)
    ensures r.Some? ==> forall id :: from <= id < r.value && id in orders ==> !Eligible(orders[id], symbol, side, limit)
    ensures r.None? <==> forall id :: from <= id < bound && id in orders ==> !Eligible(orders[id], symbol, side, limit)
    decreases bound - from
  {
    if from >= bound then None
    else if from in orders && Eligible(orders[from], symbol, side, limit) then Some(from)
    else FirstEligible(orders, symbol, side, limit, from + 1, bound)
  }

  /** The oldest OPEN SELL order of `symbol` priced at or below `buyPrice`, if any. */
  function FindSellOrder(l: Ledger, symbol: Symbol, buyPrice: real): (r: Option<Order>)
    requires WellFormed(l)
    ensures r.Some? ==> Tracked(l, r.value)
    ensures r.Some? ==> && r.value.symbol == symbol && r.value.side == Some(Sell)
                        && r.value.status == Open && r.value.price <= buyPrice
    ensures r.Some? ==> forall id :: id in l.orders && Eligible(l.orders[id], symbol, Sell, buyPrice) ==> r.value.id <= id
    ensures r.None? <==> forall id :: id in l.orders ==> !Eligible(l.orders[id], symbol, Sell, buyPrice)
  {
    match FirstEligible(l.orders, symbol, Sell, buyPrice, 0, l.nextOrderId)
    case Some(id) => Some(l.orders[id])
    case None => None
  }

  /** The oldest OPEN BUY order of `symbol` priced at or above `sellPrice`, if any. */
  function FindBuyOrder(l: Ledger, symbol: Symbol, sellPrice: real): (r: Option<Order>)
    requires WellFormed(l)
    ensures r.Some? ==> Tracked(l, r.value)
    ensures r.Some? ==> && r.value.symbol == symbol && r.value.side == Some(Buy)
                        && r.value.status == Open && r.value.price >= sellPrice
    ensures r.Some? ==> forall id :: id in l.orders && Eligible(l.orders[id], symbol, Buy, sellPrice) ==> r.value.id <= id
    ensures r.None? <==> forall id :: id in l.orders ==> !Eligible(l.orders[id], symbol, Buy, sellPrice)
  {
    match FirstEligible(l.orders, symbol, Buy, sellPrice, 0, l.nextOrderId)
    case Some(id) => Some(l.orders[id])
    case None => None
  }
}

=== FILE: order_service.dfy ===
/**
 The order lifecycle: creating and cancelling BUY and SELL orders, with the ledger
 movements those imply, and filling an order against a counter amount (whole, or split
 into a FILLED fragment and an OPEN remainder). Fills touch only the order store; the
 ledger movement of a trade is done by settlement.
 */
module OrderService {
  import opened Types
  import UserRepository
  import AssetRepository
  import OrderRepository

  /**
   The result of a fill: the order itself when it fits in the counter amount, or the new
   FILLED fragment together with the original order, left with the difference.
   */
  datatype FillResult = Full(order: Order) | Partial(filled: Order, remainder: Order) {
    /** The filled part: the part that traded. */
    function Filled(): Order {
      match this
      case Full(o) => o
      case Partial(f, _) => f
    }

    /** The part still tracked afterwards: the remainder, or the order itself when it filled whole. */
    function Remaining(): Order {
      match this
      case Full(o) => o
      case Partial(_, rest) => rest
    }
  }

  /** The only change is one new order `o` under a fresh id (the store's next one). */
  ghost predicate AddsOrder(l: Ledger, l2: Ledger, o: Order) {
    && o.id == l.nextOrderId
    && l2.nextOrderId == l.nextOrderId + 1
    && l2.orders == l.orders[o.id := o]
    && (WellFormed(l) ==> o.id !in l.orders && WellFormed(l2))
  }

  /**
   Debits price * amount from the user's balance and opens a BUY order. Fails with NotFound
   for an unknown user and with InsufficientBalance, changing nothing, when the balance does
   not cover the cost.
   */
  function CreateBuyOrder(l: Ledger, user: UserId, symbol: Symbol, price: real, amount: real)
    : (r: Result<(Ledger, Order)>)
    ensures r.Err? && r.error == NotFound <==> user !in l.balances
    ensures r.Err? && r.error == InsufficientBalance <==>
              user in l.balances && l.balances[user] < amount * price
    ensures r.Err? ==> r.error != InsufficientAsset
    ensures r.Ok? ==> var (l2, o) := r.value;
      && o == Order(o.id, user, symbol, Some(Buy), price, amount, Open)
      && AddsOrder(l, l2, o)
      && l2.balances.Keys == l.balances.Keys
      && l2.balances[user] == l.balances[user] - amount * price
      && l2.balances[user] >= 0.0
      && (forall v :: v in l.balances && v != user ==> l2.balances[v] == l.balances[v])
      && l2.assets == l.assets && l2.trades == l.trades && l2.nextUserId == l.nextUserId
  {
    var cost := amount * price;
    var balance :- UserRepository.Find(l, user);
    if balance < cost then Err(InsufficientBalance)
    else
      var l1 := UserRepository.DeductBalance(l, user, cost).value;
      Ok(OrderRepository.Create(l1, OrderRepository.OrderParams(user, symbol, Some(Buy), price, amount, None)))
  }

  /**
   Refunds the order's remaining amount * price to its owner and marks it CANCELLED, its
   amount unchanged. There is no status guard: a FILLED or already CANCELLED order is
   refunded again (see `CancelBuyOrderTwiceRefundsTwice`).
   */
  function CancelBuyOrder(l: Ledger, id: OrderId): (r: Result<(Ledger, Order)>)
    ensures r.Err? ==> r.error == NotFound
    ensures r.Ok? <==> id in l.orders && l.orders[id].user in l.balances
    ensures r.Ok? ==> var (l2, o2) := r.value; var o := l.orders[id];
      && o2 == o.(status := Cancelled)
      && l2.orders == l.orders[id := o2]
      && l2.balances.Keys == l.balances.Keys
      && l2.balances[o.user] == l.balances[o.user] + o.amount * o.price
      && (forall v :: v in l.balances && v != o.user ==> l2.balances[v] == l.balances[v])
      && l2.assets == l.assets && l2.trades == l.trades && l2.nextOrderId == l.nextOrderId
      && l2.nextUserId == l.nextUserId
    ensures r.Ok? && WellFormed(l) ==> WellFormed(r.value.0) && Tracked(r.value.0, r.value.1)
  {
    var o :- OrderRepository.Find(l, id);
    var l1 :- UserRepository.TopupBalance(l, o.user, o.amount * o.price);
    OrderRepository.Update(l1, id, OrderRepository.OrderPatch(None, Some(Cancelled)))
  }

  /**
   Fills the order `id` against `counterAmount`. When its amount fits, the order becomes
   FILLED with its amount unchanged and no order is created. Otherwise a new FILLED order of
   `counterAmount` with the same user, symbol and price (but no side) is created, and the
   original keeps its status with the positive difference. Only the order store changes.
   */
  function Fill(l: Ledger, id: OrderId, counterAmount: real): (r: Result<(Ledger, FillResult)>)
    ensures r.Ok? <==> id in l.orders
    ensures r.Err? ==> r.error == NotFound
    ensures r.Ok? ==> var (l2, f) := r.value; var o := l.orders[id];
      && l2 == l.(orders := l2.orders, nextOrderId := l2.nextOrderId)
      && (f.Full? <==> o.amount <= counterAmount)
      && (f.Full? ==> && f.order == o.(status := Filled)
                      && l2.orders == l.orders[id := f.order]
                      && l2.nextOrderId == l.nextOrderId)
    ensures r.Ok? && WellFormed(l) ==> var (l2, f) := r.value; var o := l.orders[id];
      && WellFormed(l2)
      && Tracked(l2, f.Filled()) && Tracked(l2, f.Remaining()) && f.Remaining().id == id
      && (f.Partial? ==> && f.filled == Order(l.nextOrderId, o.user, o.symbol, None, o.price, counterAmount, Filled)
                         && f.filled.id !in l.orders
                         && f.remainder == o.(amount := o.amount - counterAmount)
                         && f.remainder.amount > 0.0
                         && f.filled.amount + f.remainder.amount == o.amount
                         && l2.nextOrderId == l.nextOrderId + 1
                         && l2.orders == l.orders[f.filled.id := f.filled][id := f.remainder])
      && (o.status == Open ==>
            OpenIds(l2.orders) == (if f.Full? then OpenIds(l.orders) - {id} else OpenIds(l.orders)))
  {
    var o :- OrderRepository.Find(l, id);
    if o.amount <= counterAmount then
      var (l1, o1) := OrderRepository.Update(l, id, OrderRepository.OrderPatch(None, Some(Filled))).value;
      Ok((l1, Full(o1)))
    else
      var (l1, filled) := OrderRepository.Create(l, OrderRepository.OrderParams(o.user, o.symbol, None, o.price, counterAmount, Some(Filled)));
      var (l2, rest) := OrderRepository.Update(l1, id, OrderRepository.OrderPatch(Some(o.amount - counterAmount), None)).value;
      Ok((l2, Partial(filled, rest)))
  }

  /** Fills a BUY order against the amount of the SELL order it matched. */
  function FillBuyOrder(l: Ledger, id: OrderId, sellAmount: real): Result<(Ledger, FillResult)> {
    Fill(l, id, sellAmount)
  }

  /** Fills a SELL order against the amount of the BUY order it matched; the same fill as a BUY's. */
  function FillSellOrder(l: Ledger, id: OrderId, buyAmount: real): Result<(Ledger, FillResult)> {
    Fill(l, id, buyAmount)
  }

  /** The fill of an order on `side`: `FillBuyOrder` for a BUY order, `FillSellOrder` for a SELL one. */
  function FillSide(l: Ledger, side: Side, id: OrderId, amount: real): Result<(Ledger, FillResult)> {
    match side
    case Buy => FillBuyOrder(l, id, amount)
    case Sell => FillSellOrder(l, id, amount)
  }

  /** The side dispatch is `Fill` by definition; this step hands `Fill`'s contract to its callers. */
  lemma FillSidesAgree(l: Ledger, side: Side, id: OrderId, amount: real)
    ensures FillSide(l, side, id, amount) == Fill(l, id, amount)
    ensures FillBuyOrder(l, id, amount) == FillSellOrder(l, id, amount)
  {
  }

  /**
   Locks `amount` of the user's free asset and opens a SELL order. The row is fetched with
   `get`, so a missing one is created as a zero row. Fails with InsufficientAsset when the
   free amount does not cover `amount`.
   */
  function CreateSellOrder(l: Ledger, user: UserId, symbol: Symbol, price: real, amount: real)
    : (r: Result<(Ledger, Order)>)
    ensures r.Err? <==> Row(l, AssetKey(user, symbol)).amount < amount
    ensures r.Err? ==> r.error == InsufficientAsset
    ensures r.Ok? ==> var (l2, o) := r.value; var k := AssetKey(user, symbol);
      && o == Order(o.id, user, symbol, Some(Sell), price, amount, Open)
      && AddsOrder(l, l2, o)
      && l2.assets.Keys == l.assets.Keys + {k}
      && l2.assets[k].amount == Row(l, k).amount - amount
      && l2.assets[k].locked == Row(l, k).locked + amount
      && Holding(l2.assets[k]) == Holding(Row(l, k))
      && l2.assets[k].amount >= 0.0
      && (forall k' :: k' in l.assets && k' != k ==> l2.assets[k'] == l.assets[k'])
      && l2.balances == l.balances && l2.trades == l.trades && l2.nextUserId == l.nextUserId
  {
    var (l1, asset) := AssetRepository.Get(l, user, symbol);
    if asset.amount < amount then Err(InsufficientAsset)
    else
      var l2 := AssetRepository.Lock(l1, user, symbol, amount).value;
      Ok(OrderRepository.Create(l2, OrderRepository.OrderParams(user, symbol, Some(Sell), price, amount, None)))
  }

  /**
   Moves the order's remaining amount from locked back to free on its owner's row and marks
   it CANCELLED, its amount unchanged. As for BUY orders there is no status guard.
   */
  function CancelSellOrder(l: Ledger, id: OrderId): (r: Result<(Ledger, Order)>)
    ensures r.Err? ==> r.error == NotFound
    ensures r.Ok? <==> id in l.orders && AssetKey(l.orders[id].user, l.orders[id].symbol) in l.assets
    ensures r.Ok? ==> var (l2, o2) := r.value; var o := l.orders[id]; var k := AssetKey(o.user, o.symbol);
      && o2 == o.(status := Cancelled)
      && l2.orders == l.orders[id := o2]
      && l2.assets.Keys == l.assets.Keys
      && l2.assets[k].amount == l.assets[k].amount + o.amount
      && l2.assets[k].locked == l.assets[k].locked - o.amount
      && Holding(l2.assets[k]) == Holding(l.assets[k])
      && (forall k' :: k' in l.assets && k' != k ==> l2.assets[k'] == l.assets[k'])
      && l2.balances == l.balances && l2.trades == l.trades && l2.nextOrderId == l.nextOrderId
      && l2.nextUserId == l.nextUserId
    ensures r.Ok? && WellFormed(l) ==> WellFormed(r.value.0) && Tracked(r.value.0, r.value.1)
  {
    var o :- OrderRepository.Find(l, id);
    var l1 :- AssetRepository.Unlock(l, o.user, o.symbol, o.amount);
    OrderRepository.Update(l1, id, OrderRepository.OrderPatch(None, Some(Cancelled)))
  }

  /**
   Cancellation does not resolve an order at most once: cancelling the same BUY order a
   second time succeeds and refunds its cost again.
   */
  lemma CancelBuyOrderTwiceRefundsTwice(l: Ledger, id: OrderId)
    requires id in l.orders && l.orders[id].user in l.balances
    ensures CancelBuyOrder(l, id).Ok?
    ensures var l1 := CancelBuyOrder(l, id).value.0; var o := l.orders[id];
      && CancelBuyOrder(l1, id).Ok?
      && CancelBuyOrder(l1, id).value.0.balances[o.user] == l.balances[o.user] + 2.0 * (o.amount * o.price)
  {
  }

  /** Creating a BUY order and cancelling it at once gives back the whole balance. */
  lemma CreateThenCancelBuyOrder(l: Ledger, user: UserId, symbol: Symbol, price: real, amount: real)
    requires CreateBuyOrder(l, user, symbol, price, amount).Ok?
    ensures var (l1, o) := CreateBuyOrder(l, user, symbol, price, amount).value;
      && CancelBuyOrder(l1, o.id).Ok?
      && CancelBuyOrder(l1, o.id).value.0.balances == l.balances
      && CancelBuyOrder(l1, o.id).value.1.status == Cancelled
  {
    var (l1, o) := CreateBuyOrder(l, user, symbol, price, amount).value;
    var l2 := CancelBuyOrder(l1, o.id).value.0;
    assert l2.balances[user] == l.balances[user];
    assert l2.balances == l.balances;
  }

  /** Creating a SELL order and cancelling it at once gives back the free amount. */
  lemma CreateThenCancelSellOrder(l: Ledger, user: UserId, symbol: Symbol, price: real, amount: real)
    requires CreateSellOrder(l, user, symbol, price, amount).Ok?
    ensures var (l1, o) := CreateSellOrder(l, user, symbol, price, amount).value;
      && CancelSellOrder(l1, o.id).Ok?
      && CancelSellOrder(l1, o.id).value.0.assets[AssetKey(user, symbol)] == Row(l, AssetKey(user, symbol))
      && CancelSellOrder(l1, o.id).value.1.status == Cancelled
  {
    var (l1, o) := CreateSellOrder(l, user, symbol, price, amount).value;
    var k := AssetKey(user, symbol);
    assert l1.orders[o.id] == o && k in l1.assets;
    var l2 := CancelSellOrder(l1, o.id).value.0;
    assert l2.assets[k].amount == Row(l, k).amount && l2.assets[k].locked == Row(l, k).locked;
  }
}

=== FILE: scenarios.dfy ===
/**
 Worked scenarios of the matching loop on small concrete ledgers, following the feature
 scenarios of the repository's trade service.
 */
module Scenarios {
  import opened Types
  import UserRepository
  import AssetRepository
  import OrderRepository
  import OrderService
  import TradeService

  const BuyOf3: Order := Order(0, 1, BTC, Some(Buy), 2.0, 3.0, Open)
  const SellOf2: Order := Order(1, 0, BTC, Some(Sell), 1.5, 2.0, Open)

  /**
   A seller (user 0, balance 1, BTC row 10 free / 2 locked) and a buyer (user 1, balance
   10, empty BTC row); an OPEN BUY of 3 at 2 (order 0) and an OPEN SELL of 2 at 1.5 (order 1).
   */
  const PartialStart: Ledger := Ledger(
    map[0 := 1.0, 1 := 10.0], 2,
    map[AssetKey(0, BTC) := Asset(10.0, 2.0), AssetKey(1, BTC) := Asset(0.0, 0.0)],
    map[0 := BuyOf3, 1 := SellOf2],
    2, [])

  /** What is left of the BUY after one iteration. */
  const BuyRest: Order := Order(0, 1, BTC, Some(Buy), 2.0, 1.0, Open)

  /** The ledger after the one iteration the scenario runs. */
  const PartialEnd: Ledger := Ledger(
    map[0 := 4.94, 1 := 10.0], 2,
    map[AssetKey(0, BTC) := Asset(10.0, 0.0), AssetKey(1, BTC) := Asset(2.0, 0.0)],
    map[0 := BuyRest,
        1 := Order(1, 0, BTC, Some(Sell), 1.5, 2.0, Filled),
        2 := Order(2, 1, BTC, None, 2.0, 2.0, Filled)],
    3, [Trade(1, 2, BTC, 2.0, 2.0, 0.06)])

  lemma PartialFirstCounter()
    ensures WellFormed(PartialStart)
    ensures TradeService.FindCounter(PartialStart, BuyOf3, Buy) == Some(SellOf2)
  {
    var o := PartialStart.orders;
    assert !OrderRepository.Eligible(o[0], BTC, Sell, 2.0);
    assert OrderRepository.FirstEligible(o, BTC, Sell, 2.0, 1, 2) == Some(1);
    assert OrderRepository.FirstEligible(o, BTC, Sell, 2.0, 0, 2) == Some(1);
  }

  /** The SELL is filled whole by the BUY's 3. */
  lemma PartialCounterFill()
    ensures OrderService.Fill(PartialStart, 1, 3.0)
         == Ok((PartialStart.(orders := PartialStart.orders[1 := PartialEnd.orders[1]]),
                OrderService.Full(PartialEnd.orders[1])))
  {
  }

  /** The BUY is split by the SELL's pre-fill 2: a FILLED fragment of 2 and an OPEN rest of 1. */
  lemma PartialTriggerFill()
    ensures var l1 := PartialStart.(orders := PartialStart.orders[1 := PartialEnd.orders[1]]);
      OrderService.Fill(l1, 0, 2.0)
         == Ok((PartialStart.(orders := PartialEnd.orders, nextOrderId := 3),
                OrderService.Partial(PartialEnd.orders[2], BuyRest)))
  {
    var l1 := PartialStart.(orders := PartialStart.orders[1 := PartialEnd.orders[1]]);
    assert l1.orders[2 := PartialEnd.orders[2]][0 := BuyRest] == PartialEnd.orders;
  }

  /** The ledger after both fills, before settlement. */
  const PartialFilled: Ledger := PartialStart.(orders := PartialEnd.orders, nextOrderId := 3)

  /** The seller is paid 2 * 2 less the commission of 0.06. */
  lemma PartialPay()
    ensures TradeService.PaySeller(PartialFilled, 0, 2.0 * 2.0)
         == Ok(PartialFilled.(balances := PartialEnd.balances))
  {
    assert 2.0 * 2.0 * TradeService.CommissionRate == 0.06;
    assert PartialFilled.balances[0 := 1.0 + (4.0 - 0.06)] == PartialEnd.balances;
  }

  /** Two BTC leave the seller's locked part and enter the buyer's free part. */
  lemma PartialTransfer()
    ensures TradeService.Transfer(PartialFilled.(balances := PartialEnd.balances), 0, 1, BTC, 2.0)
         == Ok(PartialFilled.(balances := PartialEnd.balances, assets := PartialEnd.assets))
  {
    var l := PartialFilled.(balances := PartialEnd.balances);
    assert l.assets[AssetKey(0, BTC) := Asset(10.0, 0.0)][AssetKey(1, BTC) := Asset(2.0, 0.0)] == PartialEnd.assets;
  }

  /** Settling the FILLED SELL against the BUY fragment. */
  lemma PartialSettle()
    ensures TradeService.Create(PartialFilled, PartialEnd.orders[1], PartialEnd.orders[2])
         == Ok((PartialEnd, PartialEnd.trades[0]))
  {
    var sell, buy := PartialEnd.orders[1], PartialEnd.orders[2];
    assert sell.user == 0 && buy == Order(2, 1, BTC, None, 2.0, 2.0, Filled);
    PartialPay();
    PartialTransfer();
    var l3 := PartialFilled.(balances := PartialEnd.balances, assets := PartialEnd.assets);
    var t := Trade(sell.id, buy.id, buy.symbol, buy.price, buy.amount, 2.0 * 2.0 * TradeService.CommissionRate);
    assert t == PartialEnd.trades[0];
    assert l3.(trades := l3.trades + [t]) == PartialEnd;
  }

  lemma PartialRound()
    ensures WellFormed(PartialStart)
    ensures TradeService.MatchRound(PartialStart, BuyOf3, SellOf2, Buy) == Ok(TradeService.Round(PartialEnd, BuyRest))
  {
    PartialFirstCounter();
    PartialCounterFill();
    PartialTriggerFill();
    PartialSettle();
  }

  lemma PartialNoCounterLeft()
    ensures WellFormed(PartialEnd)
    ensures TradeService.FindCounter(PartialEnd, BuyRest, Buy).None?
  {
    var o := PartialEnd.orders;
    assert forall id :: id in o ==> !OrderRepository.Eligible(o[id], BTC, Sell, 2.0);
  }

  /**
   The BUY of 3 against the SELL of 2: the SELL is FILLED, a FILLED fragment of 2 (with no
   side) is split off the BUY, which stays OPEN with 1; one trade of 2 at the BUY's price 2
   with commission 0.06 is recorded, the seller receives 4 - 0.06 and loses 2 locked, the
   buyer gains 2 free.
   */
  lemma FindBuyOrderMatchPartial()
    ensures WellFormed(PartialStart) && Tracked(PartialStart, BuyOf3)
    ensures var r := TradeService.FindBuyOrderMatch(PartialStart, BuyOf3);
      && r.Ok?
      && r.value.trigger == Order(0, 1, BTC, Some(Buy), 2.0, 1.0, Open)
      && r.value.ledger.orders == map[
           0 := Order(0, 1, BTC, Some(Buy), 2.0, 1.0, Open),
           1 := Order(1, 0, BTC, Some(Sell), 1.5, 2.0, Filled),
           2 := Order(2, 1, BTC, None, 2.0, 2.0, Filled)]
      && r.value.ledger.trades == [Trade(1, 2, BTC, 2.0, 2.0, 0.06)]
      && r.value.ledger.balances == map[0 := 4.94, 1 := 10.0]
      && r.value.ledger.assets == map[AssetKey(0, BTC) := Asset(10.0, 0.0), AssetKey(1, BTC) := Asset(2.0, 0.0)]
  {
    PartialFirstCounter();
    PartialRound();
    PartialNoCounterLeft();
    assert TradeService.MatchLoop(PartialEnd, BuyRest, Buy) == Ok(TradeService.Round(PartialEnd, BuyRest));
  }
}

=== FILE: trade_service.dfy ===
/**
 Matching and settlement. A matching loop starts from a triggering order, repeatedly picks
 the oldest eligible counter-order, fills both sides, settles the trade and goes on with
 what is left of the trigger, until the trigger is FILLED or no counter-order is eligible.
 Settlement always prices and sizes the trade from the BUY side.
 */
module TradeService {
  import opened Types
  import UserRepository
  import AssetRepository
  import OrderRepository
  import OrderService

  /** The commission withheld from the seller's proceeds: 1.5% of the trade's notional. */
  const CommissionRate: real := 0.015

  function Opposite(side: Side): Side {
    match side
    case Buy => Sell
    case Sell => Buy
  }

  /**
   The asset half of settlement: `amount` of `symbol` leaves the seller's locked part and
   enters the buyer's free part (the buyer's row is created when missing). Fails with
   NotFound when the seller has no row.
   */
  function Transfer(l: Ledger, seller: UserId, buyer: UserId, symbol: Symbol, amount: real): (r: Result<Ledger>)
    ensures r.Err? ==> r.error == NotFound
    ensures r.Ok? <==> AssetKey(seller, symbol) in l.assets
    ensures r.Ok? ==> r.value == l.(assets := r.value.assets)
    ensures r.Ok? ==> var l2 := r.value;
      var ks, kb := AssetKey(seller, symbol), AssetKey(buyer, symbol);
      && l2.assets.Keys == l.assets.Keys + {kb}
      && l2.assets[ks].locked == l.assets[ks].locked - amount
      && l2.assets[kb].amount == Row(l, kb).amount + amount
      && (ks != kb ==> && l2.assets[ks].amount == l.assets[ks].amount
                       && l2.assets[kb].locked == Row(l, kb).locked
                       && Holding(l2.assets[ks]) + Holding(l2.assets[kb]) == Holding(l.assets[ks]) + Holding(Row(l, kb)))
      && (ks == kb ==> Holding(l2.assets[ks]) == Holding(l.assets[ks]))
      && (forall k :: k in l.assets && k != ks && k != kb ==> l2.assets[k] == l.assets[k])
  {
    var l1 :- AssetRepository.Sold(l, seller, symbol, amount);
    Ok(AssetRepository.Bought(l1, buyer, symbol, amount))
  }

  /**
   The money half of settlement: the seller is credited the sales total less the
   commission. Fails with NotFound for an unknown seller.
   */
  function PaySeller(l: Ledger, seller: UserId, salesTotal: real): (r: Result<Ledger>)
    ensures r.Err? ==> r.error == NotFound
    ensures r.Ok? <==> seller in l.balances
    ensures r.Ok? ==> UserRepository.OnlyBalanceOf(l, r.value, seller)
    ensures r.Ok? ==> r.value.balances[seller] - l.balances[seller] + salesTotal * CommissionRate == salesTotal
  {
    var commission := salesTotal * CommissionRate;
    UserRepository.TopupBalance(l, seller, salesTotal - commission)
  }

  /**
   Settles a trade between a filled SELL order and a filled BUY order: credits the seller
   with the sales total (buy amount * buy price) less the commission, takes the traded
   amount out of the seller's locked asset, credits it to the buyer's free asset (creating
   the buyer's row when missing) and appends one trade record. Fails with NotFound when the
   seller is unknown or has no row for the symbol.
   */
  function Create(l: Ledger, sell: Order, buy: Order): (r: Result<(Ledger, Trade)>)
    ensures r.Err? ==> r.error == NotFound
    ensures r.Ok? <==> sell.user in l.balances && AssetKey(sell.user, buy.symbol) in l.assets
    ensures r.Ok? ==> var (l2, t) := r.value;
      && t.sellOrderId == sell.id && t.buyOrderId == buy.id && t.symbol == buy.symbol
      && t.price == buy.price && t.amount == buy.amount
      && t.commission == buy.amount * buy.price * CommissionRate
      && l2.trades == l.trades + [t]
      && l2.orders == l.orders && l2.nextOrderId == l.nextOrderId && l2.nextUserId == l.nextUserId
    ensures r.Ok? ==> r.value.0.balances.Keys == l.balances.Keys
    ensures r.Ok? && WellFormed(l) ==> WellFormed(r.value.0)
  {
    var salesTotal := buy.amount * buy.price;
    var l1 :- PaySeller(l, sell.user, salesTotal);
    var commission := salesTotal * CommissionRate;
    var l3 :- Transfer(l1, sell.user, buy.user, buy.symbol, buy.amount);
    var t := Trade(sell.id, buy.id, buy.symbol, buy.price, buy.amount, commission);
    Ok((l3.(trades := l3.trades + [t]), t))
  }

  /**
   The money side of settlement: the seller is credited the sales total less the
   commission, so credit and commission add up to amount * price; no other balance changes.
   */
  lemma CreatePaysSeller(l: Ledger, sell: Order, buy: Order)
    ensures var r := Create(l, sell, buy);
      r.Ok? ==> var (l2, t) := r.value;
      && l2.balances.Keys == l.balances.Keys
      && l2.balances[sell.user] - l.balances[sell.user] + t.commission == t.amount * t.price
      && (forall v :: v in l.balances && v != sell.user ==> l2.balances[v] == l.balances[v])
  {
  }

  /**
   The asset side of settlement: the traded amount leaves the seller's locked part and
   enters the buyer's free part; the holdings of the two rows are conserved and no other
   row changes.
   */
  lemma CreateMovesAsset(l: Ledger, sell: Order, buy: Order)
    ensures var r := Create(l, sell, buy);
      r.Ok? ==> var (l2, t) := r.value;
      var ks, kb := AssetKey(sell.user, buy.symbol), AssetKey(buy.user, buy.symbol);
      && l2.assets.Keys == l.assets.Keys + {kb}
      && l2.assets[ks].locked == l.assets[ks].locked - t.amount
      && l2.assets[kb].amount == Row(l, kb).amount + t.amount
      && (ks != kb ==> && l2.assets[ks].amount == l.assets[ks].amount
                       && l2.assets[kb].locked == Row(l, kb).locked
                       && Holding(l2.assets[ks]) + Holding(l2.assets[kb]) == Holding(l.assets[ks]) + Holding(Row(l, kb)))
      && (ks == kb ==> Holding(l2.assets[ks]) == Holding(l.assets[ks]))
      && (forall k :: k in l.assets && k != ks && k != kb ==> l2.assets[k] == l.assets[k])
  {
  }

  /**
   A trade made for a trigger of `symbol` with limit `price`: same symbol, and a price that
   honours the limit (a BUY trigger trades at its own price, a SELL trigger at or above it).
   */
  predicate Fits(tr: Trade, symbol: Symbol, price: real, role: Side) {
    && tr.symbol == symbol
    && match role
       case Buy => tr.price == price
       case Sell => tr.price >= price
  }

  /** `b` extends `a`, and every trade it adds fits the trigger. */
  ghost predicate ExtendsFitting(a: seq<Trade>, b: seq<Trade>, symbol: Symbol, price: real, role: Side) {
    && |a| <= |b| && b[..|a|] == a
    && forall i :: |a| <= i < |b| ==> Fits(b[i], symbol, price, role)
  }

  lemma ExtendsFittingChain(a: seq<Trade>, b: seq<Trade>, c: seq<Trade>,
                            symbol: Symbol, price: real, role: Side)
    requires ExtendsFitting(a, b, symbol, price, role)
    requires ExtendsFitting(b, c, symbol, price, role)
    ensures ExtendsFitting(a, c, symbol, price, role)
  {
    assert c[..|a|] == c[..|b|][..|a|];
    forall i | |a| <= i < |c|
      ensures Fits(c[i], symbol, price, role)
    {
      if i < |b| {
        assert c[i] == c[..|b|][i];
      }
    }
  }

  /** The state a matching loop carries from one iteration to the next. */
  datatype Round = Round(ledger: Ledger, trigger: Order)

  /**
   What holds between the start of a loop on trigger `t` and any later round `out`: the
   stores stay well formed, `out.trigger` is the current version of `t` with its status
   kept or turned FILLED, no user appears or disappears, the trade list only grows, by
   trades that fit the trigger, and by no more trades than orders that left the OPEN set.
   */
  ghost predicate LoopInv(l: Ledger, t: Order, role: Side, out: Round) {
    && WellFormed(out.ledger) && Tracked(out.ledger, out.trigger) && SameOrder(out.trigger, t)
    && (out.trigger.status == t.status || out.trigger.status == Filled)
    && out.ledger.balances.Keys == l.balances.Keys
    && ExtendsFitting(l.trades, out.ledger.trades, t.symbol, t.price, role)
    && |out.ledger.trades| - |l.trades| <= OpenCount(l) - OpenCount(out.ledger)
  }

  lemma LoopInvChain(l: Ledger, t: Order, role: Side, mid: Round, out: Round)
    requires LoopInv(l, t, role, mid)
    requires LoopInv(mid.ledger, mid.trigger, role, out)
    ensures LoopInv(l, t, role, out)
  {
    ExtendsFittingChain(l.trades, mid.ledger.trades, out.ledger.trades, t.symbol, t.price, role);
  }

  /**
   The counter-order query of a loop whose trigger plays `role`: a BUY trigger looks for
   SELL orders at or below its price, a SELL trigger for BUY orders at or above it.
   */
  function FindCounter(l: Ledger, t: Order, role: Side): (r: Option<Order>)
    requires WellFormed(l)
    ensures r.Some? ==> Tracked(l, r.value) && OrderRepository.Eligible(r.value, t.symbol, Opposite(role), t.price)
    ensures r.None? <==> forall id :: id in l.orders ==> !OrderRepository.Eligible(l.orders[id], t.symbol, Opposite(role), t.price)
  {
    match role
    case Buy => OrderRepository.FindSellOrder(l, t.symbol, t.price)
    case Sell => OrderRepository.FindBuyOrder(l, t.symbol, t.price)
  }

  /** The order's fields that a fill leaves alone. */
  predicate SameOrder(a: Order, b: Order) {
    a.id == b.id && a.user == b.user && a.symbol == b.symbol && a.side == b.side && a.price == b.price
  }

  /** The store after both fills of an iteration, with what each fill returned. */
  datatype Fills = Fills(ledger: Ledger, counter: OrderService.FillResult, trigger: OrderService.FillResult)

  /**
   The two fills of an iteration: the counter-order `c` is filled by the trigger's amount,
   then the trigger by the counter's amount as it was before its fill, each through the
   fill of its own side. Both filled parts carry the smaller of the two amounts, and at
   least one of the two orders leaves the OPEN set. Only the order store changes.
   */
  function FillBoth(l: Ledger, t: Order, c: Order, role: Side): (r: Fills)
    requires WellFormed(l) && Tracked(l, t) && Tracked(l, c)
    requires t.status == Open && c.status == Open && t.id != c.id
    ensures var l2 := r.ledger;
      && WellFormed(l2)
      && l2 == l.(orders := l2.orders, nextOrderId := l2.nextOrderId)
      && OpenCount(l2) < OpenCount(l)
    ensures var l2, cf, tf := r.ledger, r.counter.Filled(), r.trigger.Filled();
      && Tracked(l2, cf) && Tracked(l2, tf)
      && cf.status == Filled && tf.status == Filled
      && cf.amount == Min(t.amount, c.amount) && tf.amount == Min(t.amount, c.amount)
      && cf.user == c.user && cf.symbol == c.symbol && cf.price == c.price
      && tf.user == t.user && tf.symbol == t.symbol && tf.price == t.price
    ensures var l2, t2 := r.ledger, r.trigger.Remaining();
      && Tracked(l2, t2) && SameOrder(t2, t)
      && (t2.status == Filled || (t2.status == Open && t2.amount == t.amount - c.amount))
      && c.id in l2.orders && (t2.status == Filled || l2.orders[c.id].status == Filled)
  {
    OrderService.FillSidesAgree(l, Opposite(role), c.id, t.amount);
    var (l1, counterFill) := OrderService.FillSide(l, Opposite(role), c.id, t.amount).value;
    assert Tracked(l1, t);
    OrderService.FillSidesAgree(l1, role, t.id, c.amount);
    var (l2, triggerFill) := OrderService.FillSide(l1, role, t.id, c.amount).value;
    assert t.id in OpenIds(l1.orders);
    assert counterFill.Full? ==> c.id in OpenIds(l.orders);
    Fills(l2, counterFill, triggerFill)
  }

  /** One iteration that appends one fitting trade and closes an order keeps the loop invariant. */
  lemma RoundKeepsInv(l: Ledger, t: Order, role: Side, l2: Ledger, t2: Order, tr: Trade)
    requires WellFormed(l2) && Tracked(l2, t2) && SameOrder(t2, t)
    requires t2.status == t.status || t2.status == Filled
    requires l2.balances.Keys == l.balances.Keys
    requires l2.trades == l.trades + [tr] && Fits(tr, t.symbol, t.price, role)
    requires OpenCount(l2) < OpenCount(l)
    ensures LoopInv(l, t, role, Round(l2, t2))
  {
    assert l2.trades[..|l.trades|] == l.trades;
  }

  /**
   One loop iteration: both fills, then settlement of the two filled parts (the SELL part
   and the BUY part, whichever side the trigger is on), going on with what is left of the
   trigger. Fails with NotFound when settlement does.
   */
  function MatchRound(l: Ledger, t: Order, c: Order, role: Side): (r: Result<Round>)
    requires WellFormed(l) && Tracked(l, t) && Tracked(l, c)
    requires t.status == Open && t.id != c.id
    requires OrderRepository.Eligible(c, t.symbol, Opposite(role), t.price)
    ensures r.Err? ==> r.error == NotFound
    ensures r.Ok? <==> var seller := if role == Buy then c.user else t.user;
      seller in l.balances && AssetKey(seller, t.symbol) in l.assets
    ensures r.Ok? ==> LoopInv(l, t, role, r.value) && OpenCount(r.value.ledger) < OpenCount(l)
  {
    var fills := FillBoth(l, t, c, role);
    var (sell, buy) := if role == Buy then (fills.counter.Filled(), fills.trigger.Filled())
                       else (fills.trigger.Filled(), fills.counter.Filled());
    var (l3, tr) :- Create(fills.ledger, sell, buy);
    RoundKeepsInv(l, t, role, l3, fills.trigger.Remaining(), tr);
    Ok(Round(l3, fills.trigger.Remaining()))
  }

  /**
   What one iteration leaves: the trigger's remainder is FILLED, or OPEN with the counter's
   amount taken off, and if it is still OPEN the counter-order is FILLED. The trade it
   records has as amount the smaller of the trigger's and the counter's amounts, and as
   price the BUY side's limit whichever side triggered; the ids it names are the two FILLED
   parts, of the traded amount and of the right owners.
   */
  lemma MatchRoundTrade(l: Ledger, t: Order, c: Order, role: Side)
    requires WellFormed(l) && Tracked(l, t) && Tracked(l, c)
    requires t.status == Open && t.id != c.id
    requires OrderRepository.Eligible(c, t.symbol, Opposite(role), t.price)
    ensures var r := MatchRound(l, t, c, role);
      r.Ok? ==> var l2, t2 := r.value.ledger, r.value.trigger;
      && (t2.status == Filled || (t2.status == Open && t2.amount == t.amount - c.amount))
      && c.id in l2.orders && (t2.status == Filled || l2.orders[c.id].status == Filled)
    ensures var r := MatchRound(l, t, c, role);
      r.Ok? ==> var l2 := r.value.ledger;
      && |l2.trades| == |l.trades| + 1 && l2.trades[..|l.trades|] == l.trades
      && var tr := l2.trades[|l.trades|];
      && tr.amount == Min(t.amount, c.amount)
      && tr.price == (if role == Buy then t.price else c.price)
      && Fits(tr, t.symbol, t.price, role)
      && tr.sellOrderId in l2.orders && tr.buyOrderId in l2.orders
      && l2.orders[tr.sellOrderId].status == Filled && l2.orders[tr.buyOrderId].status == Filled
      && l2.orders[tr.sellOrderId].amount == tr.amount && l2.orders[tr.buyOrderId].amount == tr.amount
      && l2.orders[tr.sellOrderId].user == (if role == Buy then c.user else t.user)
      && l2.orders[tr.buyOrderId].user == (if role == Buy then t.user else c.user)
  {
  }

  /**
   The matching loop of a trigger playing `role`. It ends with the trigger FILLED or with
   no eligible counter-order left; every iteration appends one trade and takes at least one
   order out of the OPEN set, which is why it terminates.
   */
  function MatchLoop(l: Ledger, t: Order, role: Side): (r: Result<Round>)
    requires WellFormed(l) && Tracked(l, t) && t.side != Some(Opposite(role))
    ensures r.Err? ==> r.error == NotFound
    ensures (t.status != Open || FindCounter(l, t, role).None?) ==> r == Ok(Round(l, t))
    ensures r.Ok? ==> LoopInv(l, t, role, r.value)
    ensures r.Ok? ==> r.value.trigger.status != Open || FindCounter(r.value.ledger, r.value.trigger, role).None?
    ensures r.Ok? && t.status == Open ==> var t2 := r.value.trigger;
      t2.status == Filled || (t2.status == Open && FindCounter(r.value.ledger, t2, role).None?)
    decreases OpenCount(l)
  {
    if t.status != Open then Ok(Round(l, t))
    else match FindCounter(l, t, role)
      case None => Ok(Round(l, t))
      case Some(c) =>
        var next :- MatchRound(l, t, c, role);
        var r := MatchLoop(next.ledger, next.trigger, role);
        if r.Ok? then
          LoopInvChain(l, t, role, next, r.value);
          r
        else r
  }

  /**
   The loop of a BUY trigger: it trades against the oldest eligible SELL orders, every trade
   at the trigger's own price, until the trigger is FILLED or no SELL order is eligible.
   With no eligible SELL order from the start nothing changes.
   */
  function FindBuyOrderMatch(l: Ledger, buyOrder: Order): (r: Result<Round>)
    requires WellFormed(l) && Tracked(l, buyOrder) && buyOrder.side != Some(Sell)
    ensures r.Err? ==> r.error == NotFound
    ensures (buyOrder.status != Open || OrderRepository.FindSellOrder(l, buyOrder.symbol, buyOrder.price).None?)
            ==> r == Ok(Round(l, buyOrder))
    ensures r.Ok? ==> var (l2, t2) := (r.value.ledger, r.value.trigger);
      && WellFormed(l2) && Tracked(l2, t2) && t2.id == buyOrder.id
      && (t2.status != Open || OrderRepository.FindSellOrder(l2, buyOrder.symbol, buyOrder.price).None?)
      && (buyOrder.status == Open ==>
            t2.status == Filled || (t2.status == Open && OrderRepository.FindSellOrder(l2, buyOrder.symbol, buyOrder.price).None?))
      && |l.trades| <= |l2.trades| && l2.trades[..|l.trades|] == l.trades
      && (forall i :: |l.trades| <= i < |l2.trades| ==>
            l2.trades[i].price == buyOrder.price && l2.trades[i].symbol == buyOrder.symbol)
  {
    MatchLoop(l, buyOrder, Buy)
  }

  /**
   The loop of a SELL (or side-less) trigger: it trades against the oldest eligible BUY
   orders, every trade at a price at or above the trigger's, until the trigger is FILLED or
   no BUY order is eligible. With no eligible BUY order from the start nothing changes.
   */
  function FindSellOrderMatch(l: Ledger, sellOrder: Order): (r: Result<Round>)
    requires WellFormed(l) && Tracked(l, sellOrder) && sellOrder.side != Some(Buy)
    ensures r.Err? ==> r.error == NotFound
    ensures (sellOrder.status != Open || OrderRepository.FindBuyOrder(l, sellOrder.symbol, sellOrder.price).None?)
            ==> r == Ok(Round(l, sellOrder))
    ensures r.Ok? ==> var (l2, t2) := (r.value.ledger, r.value.trigger);
      && WellFormed(l2) && Tracked(l2, t2) && t2.id == sellOrder.id
      && (t2.status != Open || OrderRepository.FindBuyOrder(l2, sellOrder.symbol, sellOrder.price).None?)
      && (sellOrder.status == Open ==>
            t2.status == Filled || (t2.status == Open && OrderRepository.FindBuyOrder(l2, sellOrder.symbol, sellOrder.price).None?))
      && |l.trades| <= |l2.trades| && l2.trades[..|l.trades|] == l.trades
      && (forall i :: |l.trades| <= i < |l2.trades| ==>
            l2.trades[i].price >= sellOrder.price && l2.trades[i].symbol == sellOrder.symbol)
  {
    MatchLoop(l, sellOrder, Sell)
  }
}

=== FILE: types.dfy ===
/**
 The data model of the exchange: users with a quote-currency balance, per-(user, symbol)
 asset rows split into a free `amount` and a `locked` amount, an id-keyed order store and
 an append-only list of trades, all held in one immutable `Ledger` value.

 Amounts and prices are exact reals: the store's decimal columns are not rounded here.
 */
module Types {

  type UserId = nat
  type OrderId = nat

  /** The venue's tradable symbols (a small fixed enumeration). */
  datatype Symbol = BTC | ETH

  /** Every symbol, in declaration order; the listener that provisions asset rows walks it. */
  const AllSymbols: seq<Symbol> := [BTC, ETH]

  datatype Side = Buy | Sell

  datatype Status = Open | Filled | Cancelled

  datatype Option<+T> = None | Some(value: T) {
    function GetOr(default: T): T {
      match this
      case Some(v) => v
      case None => default
    }
  }

  /** The domain errors the services and repositories raise. */
  datatype Error = InsufficientBalance | InsufficientAsset | NotFound

  /** A failure-compatible result: `var x :- E;` propagates an `Err`. */
  datatype Result<+T> = Ok(value: T) | Err(error: Error) {
    predicate IsFailure() {
      Err?
    }

    /** Carries the error over to another value type. */
    function PropagateFailure<U>(): Result<U>
      requires Err?
    {
      Err(error)
    }

    function Extract(): T
      requires Ok?
    {
      value
    }
  }

  /**
   An order as the store keeps it. `side` is optional because the fragment a partial fill
   creates is stored without one; `amount` is the remaining (or, once FILLED, the filled)
   quantity.
   */
  datatype Order = Order(
    id: OrderId,
    user: UserId,
    symbol: Symbol,
    side: Option<Side>,
    price: real,
    amount: real,
    status: Status)

  datatype AssetKey = AssetKey(user: UserId, symbol: Symbol)

  /** One asset row: `amount` is free to trade, `locked` is reserved by open SELL orders. */
  datatype Asset = Asset(amount: real, locked: real)

  const ZeroAsset: Asset := Asset(0.0, 0.0)

  datatype Trade = Trade(
    sellOrderId: OrderId,
    buyOrderId: OrderId,
    symbol: Symbol,
    price: real,
    amount: real,
    commission: real)

  datatype Ledger = Ledger(
    balances: map<UserId, real>,
    nextUserId: UserId,
    assets: map<AssetKey, Asset>,
    orders: map<OrderId, Order>,
    nextOrderId: OrderId,
    trades: seq<Trade>)

  /**
   The representation invariant of the stores: every order is filed under its own id, and
   ids (of orders and of users) are handed out by auto-increment counters that are ahead of
   every id in use.
   */
  predicate WellFormed(l: Ledger) {
    && (forall id :: id in l.orders ==> l.orders[id].id == id && id < l.nextOrderId)
    && (forall u :: u in l.balances ==> u < l.nextUserId)
  }

  /** `o` is the current stored version of its own id (a fresh snapshot). */
  predicate Tracked(l: Ledger, o: Order) {
    o.id in l.orders && l.orders[o.id] == o
  }

  /** The row `get` would return: the stored one, or the zero row it would create. */
  function Row(l: Ledger, k: AssetKey): Asset {
    if k in l.assets then l.assets[k] else ZeroAsset
  }

  /** Free plus locked: what the owner holds of that symbol in all. */
  function Holding(a: Asset): real {
    a.amount + a.locked
  }

  function Min(a: real, b: real): real {
    if a <= b then a else b
  }

  /** The ids of the OPEN orders. */
  function OpenIds(orders: map<OrderId, Order>): set<OrderId> {
    set id | id in orders && orders[id].status == Open
  }

  function OpenCount(l: Ledger): nat {
    |OpenIds(l.orders)|
  }
}

=== FILE: user_repository.dfy ===
/**
 The user store: one quote-currency balance per user, changed only by relative
 increments and decrements on the addressed user.
 */
module UserRepository {
  import opened Types

  /** `l2` differs from `l` at most in user `u`'s balance. */
  ghost predicate OnlyBalanceOf(l: Ledger, l2: Ledger, u: UserId) {
    && l2 == l.(balances := l2.balances)
    && l2.balances.Keys == l.balances.Keys
    && forall v :: v in l.balances && v != u ==> l2.balances[v] == l.balances[v]
  }

  /** Adds a user with the supplied balance, or with balance 0 when none is supplied. */
  function Create(l: Ledger, balance: Option<real>): (r: (Ledger, UserId))
    ensures r.1 == l.nextUserId && r.0.nextUserId == l.nextUserId + 1
    ensures WellFormed(l) ==> r.1 !in l.balances && WellFormed(r.0)
    ensures r.1 in r.0.balances && r.0.balances.Keys == l.balances.Keys + {r.1}
    ensures balance.None? ==> r.0.balances[r.1] == 0.0
    ensures balance.Some? ==> r.0.balances[r.1] == balance.value
    ensures forall v :: v in l.balances && v != r.1 ==> r.0.balances[v] == l.balances[v]
    ensures r.0 == l.(balances := r.0.balances, nextUserId := r.0.nextUserId)
  {
    var id := l.nextUserId;
    (l.(balances := l.balances[id := balance.GetOr(0.0)], nextUserId := id + 1), id)
  }

  /** The balance of a known user; NotFound for an unknown one. */
  function Find(l: Ledger, u: UserId): (r: Result<real>)
    ensures r.Ok? <==> u in l.balances
    ensures r.Ok? ==> r.value == l.balances[u]
    ensures r.Err? ==> r.error == NotFound
  {
    if u in l.balances then Ok(l.balances[u]) else Err(NotFound)
  }

  function DeductBalance(l: Ledger, u: UserId, amount: real): (r: Result<Ledger>)
    ensures r.Ok? <==> u in l.balances
    ensures r.Err? ==> r.error == NotFound
    ensures r.Ok? ==> OnlyBalanceOf(l, r.value, u)
    ensures r.Ok? ==> r.value.balances[u] == l.balances[u] - amount
  {
    var balance :- Find(l, u);
    Ok(l.(balances := l.balances[u := balance - amount]))
  }

  function TopupBalance(l: Ledger, u: UserId, amount: real): (r: Result<Ledger>)
    ensures r.Ok? <==> u in l.balances
    ensures r.Err? ==> r.error == NotFound
    ensures r.Ok? ==> OnlyBalanceOf(l, r.value, u)
    ensures r.Ok? ==> r.value.balances[u] == l.balances[u] + amount
  {
    var balance :- Find(l, u);
    Ok(l.(balances := l.balances[u := balance + amount]))
  }

  /** A created user is found with the balance they were created with. */
  lemma CreateThenFind(l: Ledger, balance: Option<real>)
    ensures var (l2, u) := Create(l, balance); Find(l2, u) == Ok(balance.GetOr(0.0))
  {
  }

  /** A top-up undoes a deduction of the same amount exactly. */
  lemma DeductThenTopup(l: Ledger, u: UserId, amount: real)
    requires u in l.balances
    ensures DeductBalance(l, u, amount).Ok?
    ensures TopupBalance(DeductBalance(l, u, amount).value, u, amount) == Ok(l)
  {
    var l1 := DeductBalance(l, u, amount).value;
    assert l1.balances[u := l1.balances[u] + amount] == l.balances;
  }

  /** A deduction undoes a top-up of the same amount exactly. */
  lemma TopupThenDeduct(l: Ledger, u: UserId, amount: real)
    requires u in l.balances
    ensures TopupBalance(l, u, amount).Ok?
    ensures DeductBalance(TopupBalance(l, u, amount).value, u, amount) == Ok(l)
  {
    var l1 := TopupBalance(l, u, amount).value;
    assert l1.balances[u := l1.balances[u] - amount] == l.balances;
  }
}
